=== FILE: README.md ===
# Content tracker core in Dafny

A model of the client-side logic of a small content-production tracker. Items
(a title, a platform, a status of Not Started / In Progress / Complete, a
person in charge, a deadline and optional brief and links) live in a hosted
store. The client adds five pieces of logic on top of the store:

- **Link rule.** An item may be Complete only with a single-file Drive or
  Docs link as its final deliverable (`validate.dfy`, module `Validate`).
- **Kanban board.** Items appear in status columns. Dragging a card to
  another column changes its status optimistically; the change is guarded
  against drag spam and against Complete without a valid link, and the whole
  board is rolled back if the store refuses (`board.dfy`, module `Board`).
- **Item drawer.** It decides who may edit, which inputs take edits, and how
  a save merges, validates, normalises and sends the nine editable fields. It
  also loads the audit trail, and shows an empty list when that load fails
  (`drawer.dfy`, module `Drawer`).
- **Calendar.** Items are grouped by deadline day, with a two-title preview
  per cell and the list for the selected day (`calendar.dfy`, module
  `Calendar`).
- **Session and role.** The role lookup races a 2.5 s timer and falls back
  to staff. Sign-out always resets the state, and no update happens after
  unmount (`auth.dfy`, module `Auth`). The route guard chooses between a
  loading screen, an error screen, a redirect to login and the page
  (`auth_gate.dfy`, module `AuthGate`). The new-item dialog decides which row
  is inserted and how the form resets (`new_content.dfy`, module
  `NewContent`).

Shared types are in `types.dfy` (module `Types`): items, audit rows, statuses,
and lookup by id. The store is not modelled: the reply of every remote call is a
parameter. It is a `Gateway.Outcome` where the code treats an error result and
a thrown exception alike. Where the code tells them apart, the reply has its own
datatype: `Auth.RoleLookup` for the role lookup, `Auth.SignOutReply` for
sign-out, `Auth.InitReply` for the start-up session read and
`Drawer.AuditReply` for the audit query. The role race's winner is a parameter too. The rest
of the model uses only pure functions over immutable values.

JavaScript truthiness is written out where the code relies on it:

- an empty user id counts as "no user";
- an empty error message counts as "no error";
- an empty title or deadline disables Create;
- an empty brief is stored as null.

`String.prototype.trim` is modelled with the ECMAScript WhiteSpace and
LineTerminator characters.

A save whose status is not Complete replaces the final link by its trimmed
form only when that form is non-empty (`src/components/ContentDrawer.tsx`
line 94), so a whitespace-only link is stored as typed
(`Drawer.BlankLinkKeptWhenNotComplete`).

The store's primary key makes ids unique. Lemmas that need this say so with
`UniqueIds`. Without it, `items.find` and `items.map` would disagree about
which row a drag refers to.

## Model

| member | source | states |
|---|---|---|
| Types.ParseStatus | src/lib/types.ts:1 | Only the three status names parse, and each parses to the status it names |
| Types.ParseStatusRoundTrip | src/components/Board.tsx:14 | Every status's name parses back to that status, so the column ids are exactly the statuses |
| Types.FindById | src/components/Board.tsx:75 | `find` by id is None exactly when no item has the id; otherwise it returns the first item with that id |
| Types.FindByIdUnique | src/components/Board.tsx:75 | With unique ids, `find` returns the item at any position that holds the id |
| Types.FindSelected | src/components/Board.tsx:45-47 | The selected item is absent without a selection, and otherwise is the first item with the selected id; the calendar's `selected` (src/components/CalendarView.tsx line 44) is the same lookup |
| Validate.Trim | src/lib/validate.ts:2 | The trimmed string is a slice of the input with only whitespace cut from either end, and it neither starts nor ends with whitespace |
| Validate.TrimUnique | src/lib/validate.ts:2 | Splitting a string into leading whitespace, a trimmed middle and trailing whitespace is unique, so `Trim` is the trim |
| Validate.NormalizeUrl | src/lib/validate.ts:7-9 | The normalised link has no leading or trailing whitespace and is no longer than the input |
| Validate.NormalizeIdempotent | src/lib/validate.ts:7-9 | Normalising twice is normalising once |
| Validate.NormalizeIsTrimmedSlice | src/lib/validate.ts:7-9 | Normalising removes exactly the leading and trailing whitespace runs and nothing else |
| Validate.IsValidDriveFileLink | src/lib/validate.ts:1-5 | A valid link is not blank and contains one of the two markers |
| Validate.ValidIffContainsMarker | src/lib/validate.ts:1-5 | A link is valid if and only if it contains the file-link marker or the Docs marker |
| Validate.BlankIsInvalid | src/lib/validate.ts:3 | Empty and whitespace-only links are invalid |
| Validate.NoMarkerIsInvalid | src/lib/validate.ts:4 | A link with neither marker, such as a folder link, is invalid |
| Validate.ContainsInSlice | src/lib/validate.ts:4 | A substring found in a slice is also found in the whole string |
| Validate.ContainsSurvivesTrim | src/lib/validate.ts:2-4 | Trimming never removes an occurrence of either marker, since the markers have no whitespace |
| Validate.ValidityIgnoresNormalize | src/lib/validate.ts:1-9 | A link and its normalised form are valid alike |
| Validate.DriveFileLinkIsValid | src/lib/validate.ts:2-4 | An https Drive file link typed with surrounding spaces is valid |
| Board.Decide | src/components/Board.tsx:64-87 | A drop that clears every guard (a status column, a card not in flight, found, with another status, and a valid link for Complete) is accepted with the column's status; an accepted drop satisfies all of these. A Complete drop for a card not in flight, found, not yet Complete and with an invalid link asks for a link instead |
| Board.SetStatus | src/components/Board.tsx:90 | The optimistic update changes the status of the items with the id, and nothing else |
| Board.BeginDrag | src/components/Board.tsx:64-94 | A call starts exactly when the drop clears every guard. It then marks the id in flight, snapshots the items and applies the optimistic status change. An ignored drop changes neither the items nor the in-flight set |
| Board.FinishDrag | src/components/Board.tsx:92-101 | The id leaves the in-flight set on either outcome. A failure restores the snapshot and alerts; a success keeps the current items |
| Board.NoOpDrops | src/components/Board.tsx:66-77 | A drop with no target, onto a non-status, for an unknown card or onto its own column leaves the board exactly as it was |
| Board.AcceptedDropStartsCall | src/components/Board.tsx:64-94 | A drop that clears every guard moves the card to the target column, marks it in flight and starts exactly one call carrying the target and the pre-drop items |
| Board.InFlightDropped | src/components/Board.tsx:72 | A drop for a card whose update is pending leaves the board exactly as it was |
| Board.SecondRequestDropped | src/components/Board.tsx:72-94 | A second drop of the same card before the first call settles makes no call, so one call is sent with the first target |
| Board.CompleteNeedsLink | src/components/Board.tsx:80-87 | A Complete drop without a valid final link makes no call, keeps the items and opens the card in the drawer |
| Board.AcceptedChangesOnlyStatus | src/components/Board.tsx:74-90 | An accepted drop is a single-position update of the dragged card's status to a new value, and ids stay unique |
| Board.RollbackUndoesOtherDrop | src/components/Board.tsx:74-101 | A failed call rolls back the whole snapshot, so a second card whose own call succeeded meanwhile returns to its old column |
| Board.FailureRestoresBoard | src/components/Board.tsx:95-101 | After a failure, items and in-flight set equal those before the drop, and an alert is shown |
| Board.SuccessKeepsNewStatus | src/components/Board.tsx:90-101 | After a success, the card keeps its new status and the in-flight set is what it was before the drop |
| Board.DragKeepsCompleteRule | src/components/Board.tsx:80-101 | Drops and their settling never produce a Complete item without a valid link |
| Board.Column | src/components/Board.tsx:49-57 | A column holds only items of its status and is no longer than the list |
| Board.ColumnMembers | src/components/Board.tsx:55 | An item is in a column exactly when it is in the list with that status |
| Board.ByStatus | src/components/Board.tsx:49-57 | The one-pass bucketing gives every status the items with that status, in list order |
| Board.ColumnsPartition | src/components/Board.tsx:49-57 | The three columns together are a permutation of the items |
| Board.ColumnSizes | src/components/Board.tsx:49-57 | The column sizes add up to the number of items |
| Board.ColumnOfConcat | src/components/Board.tsx:55 | The column of a concatenation is the concatenation of the columns |
| Board.ColumnSnoc | src/components/Board.tsx:55 | Appending an item extends only its own status's column |
| Board.ReplaceById | src/components/Board.tsx:140-141 | After a save, every entry with the saved row's id is that row and every other entry is unchanged |
| Board.ReplaceByIdIsPointUpdate | src/components/Board.tsx:140-141 | With unique ids, a save is a single-position update that keeps ids unique and makes the saved row findable; an unknown id changes nothing |
| Drawer.IsEditable | src/components/ContentDrawer.tsx:29-33 | Nothing is editable without an item. Admins may edit any item; others only items whose PIC they are |
| Drawer.SaveEnabled | src/components/ContentDrawer.tsx:256-257 | Save is enabled exactly when an item is open, no save runs, and the user is an admin or the item's PIC |
| Drawer.ApplyEdit | src/components/ContentDrawer.tsx:147-252 | An enabled input takes the typed value into its field and changes nothing else. The PIC input is enabled for admins only, the others for editable items; the asset and draft links only for In Progress or Complete, the final link only for Complete. A disabled or hidden input changes nothing, and no edit touches the id or the timestamps |
| Drawer.NonAdminEditsKeepPic | src/components/ContentDrawer.tsx:197-199 | After any run of edits by a non-admin, the form keeps its PIC |
| Drawer.Merge | src/components/ContentDrawer.tsx:80 | Each field of the merged record comes from the patch when the patch sets it, and from the form otherwise |
| Drawer.MergeLaws | src/components/ContentDrawer.tsx:80 | Merging no patch is the identity, and merging the same patch twice is merging it once |
| Drawer.ApplyPayload | src/components/ContentDrawer.tsx:97-112 | The stored row carries exactly the sent fields, with its id and creation time kept |
| Drawer.PlanSave | src/components/ContentDrawer.tsx:74-110 | Save does nothing without an item and rejects exactly a Complete save whose trimmed link is invalid. A Complete save sends the trimmed link; any other save sends it when it is non-empty and the merged link otherwise. All other fields are the merged ones |
| Drawer.CompleteSaveSendsValidLink | src/components/ContentDrawer.tsx:85-91 | A Complete save sends a present, valid link already in normal form |
| Drawer.BlankLinkKeptWhenNotComplete | src/components/ContentDrawer.tsx:92-95 | When the item is not Complete, a whitespace-only final link is sent unchanged |
| Drawer.NonAdminSaveKeepsPic | src/components/ContentDrawer.tsx:35-38 | A non-admin's save from the drawer sends the item's own PIC |
| Drawer.SavedRowKeepsCompleteRule | src/components/ContentDrawer.tsx:85-112 | Storing any payload a save sends yields a row that keeps its id and satisfies the link rule |
| Drawer.FinishSave | src/components/ContentDrawer.tsx:114-118 | The row is handed back exactly when the store answers with it |
| Drawer.FinishAuditLoad | src/components/ContentDrawer.tsx:40-70 | A load settling after clean-up changes nothing. Otherwise loading ends; an error or exception shows no rows, and a null answer shows none |
| Calendar.OnDay | src/components/CalendarView.tsx:15-24 | A day's group holds exactly the items due that day, and no more entries than the list |
| Calendar.ItemsByDay | src/components/CalendarView.tsx:15-24 | The map has one key per deadline present, holding that day's items in list order |
| Calendar.GroupingSnoc | src/components/CalendarView.tsx:18-21 | Appending an item to its day's list keeps the map a grouping of the longer list |
| Calendar.DeadlinesSnoc | src/components/CalendarView.tsx:18-21 | Appending an item adds exactly its deadline to the map's keys |
| Calendar.OnDayAbsent | src/components/CalendarView.tsx:19 | A day with no item due has an empty group |
| Calendar.EveryItemGrouped | src/components/CalendarView.tsx:17-21 | Every item is in the group of its own deadline |
| Calendar.GroupSizesSum | src/components/CalendarView.tsx:15-24 | Listing each deadline once, the day groups' sizes add up to the number of items |
| Calendar.GroupingSizesSum | src/components/CalendarView.tsx:15-24 | Over the map's keys, the group sizes add up to the number of items |
| Calendar.SelectedItems | src/components/CalendarView.tsx:38-42 | Nothing is listed without a selected day, and nothing for a day not in the map |
| Calendar.SelectedItemsAreDue | src/components/CalendarView.tsx:38-42 | For a selected day, the list is exactly the items due that day |
| Calendar.Preview | src/components/CalendarView.tsx:105-108 | A non-empty day shows its first two titles at most, in order, with an ellipsis exactly when more than two are due |
| Calendar.DayCell | src/components/CalendarView.tsx:83-110 | A cell counts the items in its day's group and shows that group's preview; a day with no group counts 0 and shows no preview |
| Calendar.DayCellCountsDue | src/components/CalendarView.tsx:84-108 | Over the real grouping, a cell counts exactly the items due that day and previews their titles |
| Calendar.SaveAsymmetry | src/components/CalendarView.tsx:149-151 | After the same save, the board shows the saved row while the calendar keeps the stale one |
| Auth.RoleFromStored | src/components/AuthProvider.tsx:31-32 | The role is admin exactly when the stored role is "admin" |
| Auth.FetchRole | src/components/AuthProvider.tsx:20-33 | The lookup gives admin exactly for a non-empty id whose row says "admin", and rejects exactly when it throws. Everything else is staff |
| Auth.FetchRoleWithTimeout | src/components/AuthProvider.tsx:35-41 | If the timer wins, the role is staff; if the lookup wins, it is the lookup's result |
| Auth.SettledRole | src/components/AuthProvider.tsx:80-82 | A rejected lookup sets staff, and a resolved one sets its role |
| Auth.AdminOnlyFromLookup | src/components/AuthProvider.tsx:20-41 | The settled role is admin exactly when the lookup wins, the id is non-empty and the stored role is "admin" |
| Auth.SignOut | src/components/AuthProvider.tsx:50-62 | Sign-out always ends with no session, no user, staff, not loading and no error; it rethrows exactly when the remote call threw, and an error returned in the call's result is ignored |
| Auth.BeginInit | src/components/AuthProvider.tsx:68-69 | The mount effect starts loading with no error, and keeps the session, user, role and mounted flag |
| Auth.TakeSession | src/components/AuthProvider.tsx:74-85 | A new session and its user are taken, loading ends and the error is kept. A user with an id gets a lookup for that id; otherwise the role becomes staff and no lookup starts |
| Auth.Handle | src/components/AuthProvider.tsx:64-113 | When unmounted, no event changes anything or starts a lookup. Otherwise a session event has the effect of taking the session (session, user, loading done, role reset to staff without a user id); the start-up read also sets its error when there is one, and one that throws leaves no session or user, staff, loading done and an error, and starts no lookup; lookups start only for a non-empty user id, and a settled lookup changes only the role |
| Auth.Unmount | src/components/AuthProvider.tsx:115-118 | Clean-up marks the provider unmounted and keeps the state |
| Auth.NothingAfterUnmount | src/components/AuthProvider.tsx:72-116 | After unmount, no run of events changes the state or starts a lookup |
| Auth.InitFailureDefaults | src/components/AuthProvider.tsx:90-96 | A session read that throws leaves no session or user, staff, not loading, and an error, and starts no role lookup |
| Auth.InitWithoutSessionIsStaff | src/components/AuthProvider.tsx:72-89 | A start-up read without a session gives staff, no user and loading done, starts no lookup, and keeps the read's error |
| Auth.SignedOutNotification | src/components/AuthProvider.tsx:100-112 | A notification without a session gives staff, no user and loading done |
| Auth.SessionThenRole | src/components/AuthProvider.tsx:100-112 | After a session change and its lookup, the role is admin exactly when the session has a user id, the lookup wins and the row says "admin" |
| Auth.UseAuth | src/components/AuthProvider.tsx:136-140 | Reading the context throws exactly outside a provider, and otherwise gives the provider's state |
| AuthGate.Decide | src/components/RequireAuth.tsx:12-56 | The login page always shows its children. Elsewhere the guard shows loading exactly while loading, the error screen exactly for a non-empty error with no session, nothing with no session otherwise, and the page with a session. It redirects exactly when not loading, with no session, off the login page |
| AuthGate.RedirectHidesChildren | src/components/RequireAuth.tsx:12-54 | Whenever the guard redirects, it shows the error screen or nothing, never the page |
| AuthGate.EmptyErrorIsNoError | src/components/RequireAuth.tsx:27 | An empty error message with no session shows nothing and redirects |
| AuthGate.FirstRenderIsLoading | src/components/RequireAuth.tsx:19-25 | With the provider's first state (loading, no session), every page but login shows the loading screen and does not redirect |
| AuthGate.SignOutLeadsToLogin | src/components/RequireAuth.tsx:12-54 | After sign-out, whatever the remote call did, every page but login shows nothing and redirects to login |
| NewContent.CreateEnabled | src/components/NewContentModal.tsx:122 | Create is enabled exactly when not busy and the title and deadline are non-empty; whitespace counts as content |
| NewContent.PicShown | src/components/NewContentModal.tsx:100-102 | An admin sees and inserts the typed PIC; anyone else always sees their own email |
| NewContent.InsertRecordOf | src/components/NewContentModal.tsx:32-39 | The inserted row is Not Started with the typed title, platform and deadline, and the PIC shown. An empty brief is stored as null, any other brief verbatim |
| NewContent.FinishCreate | src/components/NewContentModal.tsx:40-49 | After a success, the form is the fresh form with the platform kept. After a failure, every field stays and the message is set. Busy ends either way |
| NewContent.CreateThenDisabled | src/components/NewContentModal.tsx:41-44 | After a successful create, Create is disabled until a title and deadline are typed again |
| NewContent.NewItemKeepsCompleteRule | src/components/NewContentModal.tsx:35 | A newly inserted item is never Complete, so it satisfies the link rule |

## Left out

- The hosted store is not modelled: queries, the update and insert calls, the audit query, and the store's own check and audit triggers. Each call's reply is a parameter.
- The role race's timing is a parameter saying which promise settles first. A late result after the race has settled, and calls that never settle, are not modelled.
- React rendering, hooks, memoisation, the `itemsRef` indirection and the drag-and-drop library's sensors and collision detection are not modelled. The event the library delivers is the model's input.
- Month navigation, the week grid and date formatting are left out because they are library calls. Day keys are the opaque `yyyy-MM-dd` strings the items carry.
- The page loaders, the view-only components and all message texts are left out. A message is a flag, an alert is a flag, and an error message is carried as given.
- The reload that follows a board save (`onReload`) and the refresh after a create (`onCreated`) are store reads and are not modelled. An exception from the create refresh after the form reset is not modelled either.
- The audit query's limit of 50 rows and its newest-first order are applied by the store and are not modelled.
- A drawer patch carrying an id or timestamps is not modelled. Such fields never reach the update payload.
- The drawer form is modelled as the full item it is initialised from.
- The store recomputes the update time. `Drawer.ApplyPayload` keeps the old one.
- Drawer.FinishAuditLoad: does not model the loading flag being set at the start of a load; the model covers only how a load settles.
- Auth.Handle: the error set by a session read is carried as given, not as the message text of an error object.
- Board.Decide: in-flight ids are a set. The code looks them up in a plain object, where an id naming an `Object.prototype` member (such as `constructor` or `__proto__`) would count as in flight. Ids are store-generated and never take such a name, so this case is not modelled.
- Board.FinishDrag: the failure alert's message text is not modelled; only that an alert is shown.

=== FILE: auth.dfy ===
/** Session and role (src/components/AuthProvider.tsx): the role lookup, its
    race against a timer, sign-out, and the state updates made by the start-up
    session read and by session-change notifications, none of which apply
    once the provider is unmounted. */
module Auth {
  import opened Types

  datatype Role = Admin | Staff

  datatype User = User(id: string, email: Option<string>)
  datatype Session = Session(user: User)

  /** What the provider exposes to the rest of the application. */
  datatype AuthState = AuthState(
    session: Option<Session>,
    user: Option<User>,
    role: Role,
    loading: bool,
    error: Option<string>)

  /** The provider's first render: no session, staff, loading. */
  const InitialState := AuthState(None, None, Staff, true, None)

  /** The provider and whether its effect is still mounted. */
  datatype Provider = Provider(state: AuthState, mounted: bool)

  // ----- Role ---------------------------------------------------------------

  /** A stored role string: only exactly "admin" gives the admin role. */
  function RoleFromStored(stored: Option<string>): (r: Role)
    ensures r == Admin <==> stored == Some("admin")
  {
    if stored == Some("admin") then Admin else Staff
  }

  /** The reply of the profile lookup: the stored role of the row (None for
      no row or a null role), a query error, or a thrown exception. */
  datatype RoleLookup = LookupRow(role: Option<string>) | LookupError | LookupThrew

  /** A role promise: resolved with a role, or rejected. */
  datatype RoleResult = Resolved(role: Role) | Rejected

  /** `fetchRole`: a missing or empty user id, a query error or anything but
      exactly "admin" gives staff; a thrown lookup rejects. */
  function FetchRole(userId: Option<string>, reply: RoleLookup): (r: RoleResult)
    ensures r == Resolved(Admin) <==> (userId.Some? && userId.value != "" && reply == LookupRow(Some("admin")))
    ensures r == Rejected <==> (userId.Some? && userId.value != "" && reply == LookupThrew)
  {
    if userId.None? || userId.value == "" then Resolved(Staff)
    else
      match reply
      case LookupError => Resolved(Staff)
      case LookupThrew => Rejected
      case LookupRow(stored) => Resolved(RoleFromStored(stored))
  }

  /** Which of the two racing promises settles first. */
  datatype RaceWinner = LookupFirst | TimerFirst

  /** `fetchRoleWithTimeout`: the first promise to settle decides; the timer
      resolves with staff. */
  function FetchRoleWithTimeout(userId: string, reply: RoleLookup, winner: RaceWinner): (r: RoleResult)
    ensures winner == TimerFirst ==> r == Resolved(Staff)
    ensures winner == LookupFirst ==> r == FetchRole(Some(userId), reply)
  {
    match winner
    case TimerFirst => Resolved(Staff)
    case LookupFirst => FetchRole(Some(userId), reply)
  }

  /** The role the callers set: `.then(r => setRole(r))`, `.catch(() => setRole('staff'))`. */
  function SettledRole(r: RoleResult): (role: Role)
    ensures r.Rejected? ==> role == Staff
    ensures r.Resolved? ==> role == r.role
  {
    match r
    case Resolved(role) => role
    case Rejected => Staff
  }

  /** Admin is granted only when the lookup wins the race and the stored role
      is exactly "admin"; every timeout, error, exception or other value
      leaves the user staff. */
  lemma AdminOnlyFromLookup(userId: string, reply: RoleLookup, winner: RaceWinner)
    ensures SettledRole(FetchRoleWithTimeout(userId, reply, winner)) == Admin
      <==> winner == LookupFirst && userId != "" && reply == LookupRow(Some("admin"))
  {
  }

  // ----- Sign-out -------------------------------------------------------------

  /** `doSignOut` once finished, and whether it rethrew. */
  datatype SignOutEnd = SignOutEnd(state: AuthState, threw: bool)

  /** What the remote sign-out did: resolved cleanly, resolved with an error
      in its result (which `doSignOut` never reads), or threw. */
  datatype SignOutReply = SignedOut | SignOutError | SignOutThrew

  /** `doSignOut`: the error is cleared first; whatever the remote sign-out
      does, the session, user and role are reset and loading ends. Only a
      thrown exception propagates to the caller, after the reset; an error
      returned in the result is ignored. */
  function SignOut(s: AuthState, remote: SignOutReply): (r: SignOutEnd)
    ensures r.state == AuthState(None, None, Staff, false, None)
    ensures r.threw <==> remote == SignOutThrew
  {
    var cleared := s.(loading := true, error := None);
    SignOutEnd(cleared.(session := None, user := None, role := Staff, loading := false), remote.SignOutThrew?)
  }

  // ----- Provider events --------------------------------------------------------

  /** The reply of the start-up session read. */
  datatype InitReply =
    | GotSession(session: Option<Session>, err: Option<string>)
    | InitThrew(message: Option<string>)

  /** Notifications the provider reacts to. */
  datatype AuthEvent =
    | InitDone(reply: InitReply)
    | AuthChanged(session: Option<Session>)
    | RoleSettled(result: RoleResult)

  /** The provider after an event, and the user id whose role lookup it
      started, if any. */
  datatype Step = Step(provider: Provider, lookupFor: Option<string>)

  /** A session whose user has a non-empty id (`sess?.user?.id` truthy). */
  predicate HasUserId(session: Option<Session>) {
    session.Some? && session.value.user.id != ""
  }

  /** The start of the mount effect: loading, error cleared. */
  function BeginInit(p: Provider): (r: Provider)
    ensures r.state.loading && r.state.error.None?
    ensures r.state.session == p.state.session && r.state.role == p.state.role
    ensures r.state.user == p.state.user && r.mounted == p.mounted
  {
    p.(state := p.state.(loading := true, error := None))
  }

  /** A session arriving (at start-up or by notification): session and user
      are taken, loading ends, and the role is looked up for a user with an
      id or reset to staff otherwise. */
  function TakeSession(p: Provider, session: Option<Session>): (r: Step)
    requires p.mounted
    ensures r.provider.state.session == session && !r.provider.state.loading
    ensures r.provider.state.user == (if session.Some? then Some(session.value.user) else None)
    ensures r.provider.state.error == p.state.error && r.provider.mounted
    ensures !HasUserId(session) ==> r.provider.state.role == Staff && r.lookupFor.None?
    ensures HasUserId(session) ==> r.provider.state.role == p.state.role
    ensures HasUserId(session) ==> r.lookupFor == Some(session.value.user.id)
  {
    var st := p.state.(session := session,
                       user := if session.Some? then Some(session.value.user) else None,
                       loading := false);
    if HasUserId(session) then Step(p.(state := st), Some(session.value.user.id))
    else Step(p.(state := st.(role := Staff)), None)
  }

  /** One event. Every update is guarded by `mounted`: after unmount the
      state no longer changes and no lookup starts. */
  function Handle(p: Provider, ev: AuthEvent): (r: Step)
    ensures !p.mounted ==> r == Step(p, None)
    ensures r.provider.mounted == p.mounted
    ensures r.lookupFor.Some? ==> p.mounted && r.lookupFor.value != "" && !ev.RoleSettled?
    ensures p.mounted && ev.AuthChanged? ==> r == TakeSession(p, ev.session)
    ensures p.mounted && ev.RoleSettled? ==>
      r == Step(p.(state := p.state.(role := SettledRole(ev.result))), None)
    ensures p.mounted && ev.InitDone? && ev.reply.GotSession? ==>
      && r.provider.state.session == ev.reply.session
      && !r.provider.state.loading
      && r.provider.state.error == (if ev.reply.err.Some? then ev.reply.err else p.state.error)
      && r.lookupFor == TakeSession(p, ev.reply.session).lookupFor
    ensures p.mounted && ev.InitDone? && ev.reply.GotSession? ==>
      r.provider.state.(error := p.state.error) == TakeSession(p, ev.reply.session).provider.state
    ensures p.mounted && ev.InitDone? && ev.reply.InitThrew? ==>
      && r.provider.state.session.None? && r.provider.state.user.None?
      && r.provider.state.role == Staff && !r.provider.state.loading
      && r.provider.state.error.Some? && r.lookupFor.None?
  {
    if !p.mounted then Step(p, None)
    else
      match ev
      case InitDone(GotSession(session, err)) =>
        var s := TakeSession(p, session);
        if err.Some? then Step(s.provider.(state := s.provider.state.(error := err)), s.lookupFor)
        else s
      case InitDone(InitThrew(message)) =>
        Step(p.(state := AuthState(None, None, Staff, false, Some(message.GetOr("Auth init failed")))), None)
      case AuthChanged(session) => TakeSession(p, session)
      case RoleSettled(result) => Step(p.(state := p.state.(role := SettledRole(result))), None)
  }

  /** The effect's clean-up. */
  function Unmount(p: Provider): (r: Provider)
    ensures !r.mounted && r.state == p.state
  {
    p.(mounted := false)
  }

  /** The provider after a run of events, and every lookup they started. */
  function HandleAll(p: Provider, evs: seq<AuthEvent>): (r: (Provider, seq<string>))
    decreases |evs|
  {
    if |evs| == 0 then (p, [])
    else
      var s := Handle(p, evs[0]);
      var rest := HandleAll(s.provider, evs[1..]);
      (rest.0, (if s.lookupFor.Some? then [s.lookupFor.value] else []) + rest.1)
  }

  /** After unmount, no run of events changes the state or starts a lookup. */
  lemma {:induction false} NothingAfterUnmount(p: Provider, evs: seq<AuthEvent>)
    requires !p.mounted
    ensures HandleAll(p, evs) == (p, [])
    decreases |evs|
  {
    if |evs| > 0 {
      var s := Handle(p, evs[0]);
      assert s == Step(p, None);
      NothingAfterUnmount(p, evs[1..]);
      var rest := HandleAll(s.provider, evs[1..]);
      assert rest == (p, []);
      assert [] + rest.1 == rest.1;
      assert HandleAll(p, evs) == (rest.0, rest.1);
    }
  }

  /** A start-up read that throws leaves no session, staff, loading done and
      an error set. */
  lemma InitFailureDefaults(p: Provider, message: Option<string>)
    requires p.mounted
    ensures var st := Handle(p, InitDone(InitThrew(message))).provider.state;
      st.session.None? && st.user.None? && st.role == Staff && !st.loading && st.error.Some?
    ensures Handle(p, InitDone(InitThrew(message))).lookupFor.None?
  {
  }

  /** A start-up read without a session makes the user staff, leaves no
      user, ends loading and starts no lookup; a read error is kept. */
  lemma InitWithoutSessionIsStaff(p: Provider, err: Option<string>)
    requires p.mounted
    ensures var s := Handle(p, InitDone(GotSession(None, err)));
      && s.provider.state.role == Staff && s.provider.state.user.None?
      && !s.provider.state.loading && s.lookupFor.None?
      && (err.Some? ==> s.provider.state.error == err)
  {
  }

  /** A notification without a user makes the user staff and ends loading. */
  lemma SignedOutNotification(p: Provider)
    requires p.mounted
    ensures var st := Handle(p, AuthChanged(None)).provider.state;
      st.role == Staff && !st.loading && st.session.None? && st.user.None?
  {
  }

  /** A session change followed by the lookup's answer: the role ends as the
      race decided, or staff when the session has no user id. */
  lemma SessionThenRole(p: Provider, session: Option<Session>, reply: RoleLookup, winner: RaceWinner)
    requires p.mounted
    ensures var s := Handle(p, AuthChanged(session));
      var role := if s.lookupFor.Some?
        then Handle(s.provider, RoleSettled(FetchRoleWithTimeout(s.lookupFor.value, reply, winner))).provider.state.role
        else s.provider.state.role;
      role == Admin <==> HasUserId(session) && winner == LookupFirst && reply == LookupRow(Some("admin"))
  {
    var s := Handle(p, AuthChanged(session));
    if s.lookupFor.Some? {
      AdminOnlyFromLookup(s.lookupFor.value, reply, winner);
    }
  }

  // ----- Context access -----------------------------------------------------------

  /** `useAuth`: the state, or a thrown error outside a provider. */
  datatype UseAuthResult = Got(state: AuthState) | Throws

  function UseAuth(context: Option<AuthState>): (r: UseAuthResult)
    ensures r.Throws? <==> context.None?
    ensures r.Got? ==> r.state == context.value
  {
    match context
    case None => Throws
    case Some(st) => Got(st)
  }
}

=== FILE: auth_gate.dfy ===
/** The route guard (src/components/RequireAuth.tsx): what it renders for a
    path and an auth state, and when it sends the browser to the login page. */
module AuthGate {
  import opened Types
  import Auth

  const LoginPath: string := "/login"

  /** What the guard renders. */
  datatype Screen = Children | LoadingScreen | ErrorScreen | Blank

  /** The render choice and whether the effect replaces the route with the
      login page. */
  datatype Gate = Gate(screen: Screen, redirectToLogin: bool)

  /** A JavaScript string is truthy when present and non-empty. */
  predicate Truthy(s: Option<string>) {
    s.Some? && s.value != ""
  }

  /** The guard's decision table. The login page always renders its children;
      elsewhere loading comes first, then a session error without a session,
      then nothing without a session, and the children with one. */
  function Decide(pathname: string, loading: bool, hasSession: bool, error: Option<string>): (g: Gate)
    ensures pathname == LoginPath ==> g.screen == Children
    ensures g.redirectToLogin <==> !loading && !hasSession && pathname != LoginPath
    ensures pathname != LoginPath ==> (g.screen == LoadingScreen <==> loading)
    ensures pathname != LoginPath ==> (g.screen == ErrorScreen <==> !loading && Truthy(error) && !hasSession)
    ensures pathname != LoginPath ==> (g.screen == Blank <==> !loading && !Truthy(error) && !hasSession)
    ensures g.screen == Children <==> pathname == LoginPath || (!loading && hasSession)
  {
    var redirect := !loading && !hasSession && pathname != LoginPath;
    if pathname == LoginPath then Gate(Children, redirect)
    else if loading then Gate(LoadingScreen, redirect)
    else if Truthy(error) && !hasSession then Gate(ErrorScreen, redirect)
    else if !hasSession then Gate(Blank, redirect)
    else Gate(Children, redirect)
  }

  /** The guard applied to the provider's state. */
  function GateFor(pathname: string, st: Auth.AuthState): Gate {
    Decide(pathname, st.loading, st.session.Some?, st.error)
  }

  /** A redirect is never issued while protected children are shown. */
  lemma RedirectHidesChildren(pathname: string, loading: bool, hasSession: bool, error: Option<string>)
    ensures Decide(pathname, loading, hasSession, error).redirectToLogin ==>
      Decide(pathname, loading, hasSession, error).screen in {ErrorScreen, Blank}
  {
  }

  /** An empty error message is no error: the guard shows nothing and
      redirects, rather than the error screen. */
  lemma EmptyErrorIsNoError(pathname: string)
    requires pathname != LoginPath
    ensures Decide(pathname, false, false, Some("")) == Gate(Blank, true)
  {
  }

  /** The provider's first render keeps every page but the login page on
      the loading screen, without a redirect. */
  lemma FirstRenderIsLoading(pathname: string)
    requires pathname != LoginPath
    ensures GateFor(pathname, Auth.InitialState) == Gate(LoadingScreen, false)
  {
  }

  /** After sign-out, whatever the remote call did, every page but the login
      page renders nothing and redirects to login. */
  lemma SignOutLeadsToLogin(pathname: string, st: Auth.AuthState, remote: Auth.SignOutReply)
    requires pathname != LoginPath
    ensures GateFor(pathname, Auth.SignOut(st, remote).state) == Gate(Blank, true)
  {
  }
}

=== FILE: board.dfy ===
/** The kanban board (src/components/Board.tsx): status columns, the
    drag-to-change-status transition with its guards, optimistic update and
    rollback, and the replace-by-id that follows a drawer save. */
module Board {
  import opened Types
  import opened Validate
  import opened Gateway

  /** The board's state outside the view: the loaded items, the ids whose
      status update is awaiting the store, and the item open in the drawer. */
  datatype BoardState = BoardState(
    items: seq<ContentItem>,
    inFlight: set<string>,
    selectedId: Option<string>)

  /** A drag-end event: the dragged card's id and the id of the droppable it
      was released over, if any. Columns use the status name as their id. */
  datatype DragEnd = DragEnd(active: string, over: Option<string>)

  /** Why a drag request is dropped without any effect. */
  datatype Ignored = NoTarget | NotAStatus | AlreadyInFlight | UnknownItem | SameStatus

  /** The guard that decides a drag request. */
  datatype Decision =
    | Ignore(why: Ignored)
    | AskForFinalLink(id: string)
    | Accept(id: string, target: Status)

  /** The one status update sent to the store for an accepted request,
      carrying the collection as it was before the optimistic change. */
  datatype Pending = Pending(id: string, target: Status, snapshot: seq<ContentItem>)

  /** The board after the synchronous part of a drag handler, and the call
      it started, if any. */
  datatype DragStep = DragStep(board: BoardState, call: Option<Pending>)

  /** The board after the awaited call settled, and whether an alert was shown. */
  datatype Settled = Settled(board: BoardState, alerted: bool)

  /** The final link as the drag guard reads it: a missing link is "". */
  function LinkOf(item: ContentItem): string {
    item.finalLink.GetOr("")
  }

  /** Every item marked Complete carries a valid deliverable link — the rule
      the store's constraint enforces and the board checks before a drop. */
  predicate CompleteHasValidLink(items: seq<ContentItem>) {
    forall k :: 0 <= k < |items| && items[k].status == Complete ==> IsValidDriveFileLink(LinkOf(items[k]))
  }

  /** A drop that clears every guard of `handleDragEnd`: onto a status
      column, for a card not in flight that is loaded with another status,
      and, for Complete, one whose final link is valid. */
  predicate PassesGuards(s: BoardState, ev: DragEnd) {
    && ev.over.Some?
    && ParseStatus(ev.over.value).Some?
    && ev.active !in s.inFlight
    && FindById(s.items, ev.active).Some?
    && FindById(s.items, ev.active).value.status != ParseStatus(ev.over.value).value
    && (ParseStatus(ev.over.value).value == Complete ==>
          IsValidDriveFileLink(LinkOf(FindById(s.items, ev.active).value)))
  }

  /** The guards of `handleDragEnd`, in the order the handler runs them. */
  function Decide(s: BoardState, ev: DragEnd): (d: Decision)
    ensures d.Accept? ==> d.id == ev.active && ev.active !in s.inFlight
    ensures d.Accept? ==> ev.over == Some(StatusName(d.target))
    ensures d.Accept? ==> FindById(s.items, d.id).Some? && FindById(s.items, d.id).value.status != d.target
    ensures d.Accept? && d.target == Complete ==> IsValidDriveFileLink(LinkOf(FindById(s.items, d.id).value))
    ensures d.AskForFinalLink? ==> d.id == ev.active && ev.over == Some(StatusName(Complete))
    ensures d.AskForFinalLink? ==> FindById(s.items, d.id).Some?
    ensures d.AskForFinalLink? ==> !IsValidDriveFileLink(LinkOf(FindById(s.items, d.id).value))
    ensures PassesGuards(s, ev) ==> d == Accept(ev.active, ParseStatus(ev.over.value).value)
    ensures && ev.over == Some(StatusName(Complete)) && ev.active !in s.inFlight
            && FindById(s.items, ev.active).Some? && FindById(s.items, ev.active).value.status != Complete
            && !IsValidDriveFileLink(LinkOf(FindById(s.items, ev.active).value))
            ==> d == AskForFinalLink(ev.active)
  {
    if ev.over.None? then Ignore(NoTarget)
    else
      match ParseStatus(ev.over.value)
      case None => Ignore(NotAStatus)
      case Some(target) =>
        if ev.active in s.inFlight then Ignore(AlreadyInFlight)
        else
          match FindById(s.items, ev.active)
          case None => Ignore(UnknownItem)
          case Some(item) =>
            if item.status == target then Ignore(SameStatus)
            else if target == Complete && !IsValidDriveFileLink(LinkOf(item)) then AskForFinalLink(ev.active)
            else Accept(ev.active, target)
  }

  /** Sets the status of every item with the given id (`prev.map(...)`). */
  function SetStatus(items: seq<ContentItem>, id: string, target: Status): (r: seq<ContentItem>)
    ensures |r| == |items|
    ensures forall k :: 0 <= k < |items| && items[k].id != id ==> r[k] == items[k]
    ensures forall k :: 0 <= k < |items| && items[k].id == id ==> r[k] == items[k].(status := target)
  {
    seq(|items|, k requires 0 <= k < |items| => if items[k].id == id then items[k].(status := target) else items[k])
  }

  /** The synchronous part of `handleDragEnd`: guards, then for an accepted
      request the optimistic update, the in-flight mark and the one call.
      Marking in flight and starting the call are one step: nothing else runs
      before the handler awaits. */
  function BeginDrag(s: BoardState, ev: DragEnd): (r: DragStep)
    ensures r.call.None? ==> r.board.items == s.items && r.board.inFlight == s.inFlight
    ensures r.call.Some? ==> r.call.value.id == ev.active && r.call.value.snapshot == s.items
    ensures r.call.Some? ==> r.board.inFlight == s.inFlight + {ev.active}
    ensures r.call.Some? ==> ev.active !in s.inFlight
    ensures r.call.Some? ==> r.board.items == SetStatus(s.items, ev.active, r.call.value.target)
    ensures r.call.Some? <==> PassesGuards(s, ev)
  {
    match Decide(s, ev)
    case Ignore(_) => DragStep(s, None)
    case AskForFinalLink(id) => DragStep(s.(selectedId := Some(id)), None)
    case Accept(id, target) =>
      DragStep(BoardState(SetStatus(s.items, id, target), s.inFlight + {id}, s.selectedId),
               Some(Pending(id, target, s.items)))
  }

  /** The awaited part of `handleDragEnd`, against whatever the board holds
      when the store answers: on failure the whole snapshot comes back and an
      alert is shown; on either outcome the id leaves the in-flight set. */
  function FinishDrag(b: BoardState, p: Pending, outcome: Outcome<()>): (r: Settled)
    ensures p.id !in r.board.inFlight
    ensures r.board.inFlight == b.inFlight - {p.id}
    ensures r.board.selectedId == b.selectedId
    ensures outcome.Failed? ==> r.board.items == p.snapshot && r.alerted
    ensures outcome.Succeeded? ==> r.board.items == b.items && !r.alerted
  {
    match outcome
    case Succeeded(_) => Settled(b.(inFlight := b.inFlight - {p.id}), false)
    case Failed => Settled(b.(items := p.snapshot, inFlight := b.inFlight - {p.id}), true)
  }

  /** A drop with no target, onto something that is not a status column, for
      an unknown id or onto the item's own column changes nothing at all. */
  lemma NoOpDrops(s: BoardState, ev: DragEnd)
    requires || ev.over.None?
             || ParseStatus(ev.over.value).None?
             || FindById(s.items, ev.active).None?
             || FindById(s.items, ev.active).value.status == ParseStatus(ev.over.value).value
    ensures BeginDrag(s, ev) == DragStep(s, None)
  {
  }

  /** A drop that clears every guard is accepted: the card moves to the
      target column at once, its id is marked in flight, and exactly one
      call carrying that target and the pre-drop collection is started. */
  lemma AcceptedDropStartsCall(s: BoardState, ev: DragEnd, target: Status)
    requires ev.over == Some(StatusName(target))
    requires ev.active !in s.inFlight
    requires FindById(s.items, ev.active).Some?
    requires FindById(s.items, ev.active).value.status != target
    requires target == Complete ==> IsValidDriveFileLink(LinkOf(FindById(s.items, ev.active).value))
    ensures BeginDrag(s, ev) == DragStep(
      BoardState(SetStatus(s.items, ev.active, target), s.inFlight + {ev.active}, s.selectedId),
      Some(Pending(ev.active, target, s.items)))
  {
    ParseStatusRoundTrip(target);
  }

  /** A request for an id already awaiting the store is dropped. */
  lemma InFlightDropped(s: BoardState, ev: DragEnd)
    requires ev.active in s.inFlight
    ensures BeginDrag(s, ev) == DragStep(s, None)
  {
  }

  /** Two drops of the same card before the first call settles: exactly one
      call is made, and it carries the first drop's target. */
  lemma SecondRequestDropped(s: BoardState, first: DragEnd, second: DragEnd)
    requires BeginDrag(s, first).call.Some?
    requires second.active == first.active
    ensures first.over.Some? && BeginDrag(s, first).call.value.target == ParseStatus(first.over.value).value
    ensures BeginDrag(BeginDrag(s, first).board, second) == DragStep(BeginDrag(s, first).board, None)
  {
    ParseStatusRoundTrip(BeginDrag(s, first).call.value.target);
  }

  /** A drop onto Complete for an item without a valid final link makes no
      call, leaves items and in-flight set alone and opens that item in the
      drawer. */
  lemma CompleteNeedsLink(s: BoardState, ev: DragEnd)
    requires ev.over == Some(StatusName(Complete)) && ev.active !in s.inFlight
    requires FindById(s.items, ev.active).Some?
    requires FindById(s.items, ev.active).value.status != Complete
    requires !IsValidDriveFileLink(LinkOf(FindById(s.items, ev.active).value))
    ensures BeginDrag(s, ev) == DragStep(s.(selectedId := Some(ev.active)), None)
    ensures FindById(BeginDrag(s, ev).board.items, ev.active).Some?
  {
  }

  /** An accepted drop changes only the dragged item's status: length,
      order, every other field and every other item stay as they were, and
      the single call asks for exactly that status. */
  lemma AcceptedChangesOnlyStatus(s: BoardState, ev: DragEnd, k: nat)
    requires UniqueIds(s.items)
    requires BeginDrag(s, ev).call.Some?
    requires k < |s.items| && s.items[k].id == ev.active
    ensures var r := BeginDrag(s, ev);
      && r.board.items == s.items[k := s.items[k].(status := r.call.value.target)]
      && r.board.items[k].status != s.items[k].status
      && r.board.selectedId == s.selectedId
      && UniqueIds(r.board.items)
  {
    var r := BeginDrag(s, ev);
    FindByIdUnique(s.items, k);
    assert r.board.items == s.items[k := s.items[k].(status := r.call.value.target)];
  }

  /** A failed call undoes an accepted drop completely: the board is exactly
      the one the drop started from, and an alert is shown. */
  lemma FailureRestoresBoard(s: BoardState, ev: DragEnd)
    requires BeginDrag(s, ev).call.Some?
    ensures var r := BeginDrag(s, ev);
      FinishDrag(r.board, r.call.value, Failed) == Settled(s, true)
  {
  }

  /** The rollback restores the whole snapshot, not just the failed card:
      when a second card is dropped while the first call is pending and its
      own call succeeds, a failure of the first call puts the second card
      back in its old column although the store holds the new status. */
  lemma RollbackUndoesOtherDrop(s: BoardState, first: DragEnd, second: DragEnd, k: nat)
    requires UniqueIds(s.items)
    requires BeginDrag(s, first).call.Some?
    requires BeginDrag(BeginDrag(s, first).board, second).call.Some?
    requires second.active != first.active
    requires k < |s.items| && s.items[k].id == second.active
    ensures var r1 := BeginDrag(s, first);
      var r2 := BeginDrag(r1.board, second);
      var afterSecond := FinishDrag(r2.board, r2.call.value, Succeeded(()));
      var afterFirst := FinishDrag(afterSecond.board, r1.call.value, Failed);
      && afterSecond.board.items[k].status == r2.call.value.target
      && afterFirst.board.items[k] == s.items[k]
      && afterFirst.board.items[k].status != r2.call.value.target
  {
    var r1 := BeginDrag(s, first);
    var r2 := BeginDrag(r1.board, second);
    var items1 := r1.board.items;
    assert items1[k] == s.items[k];
    assert UniqueIds(items1) by {
      forall i, j | 0 <= i < |items1| && 0 <= j < |items1| && items1[i].id == items1[j].id
        ensures i == j
      {
        assert items1[i].id == s.items[i].id && items1[j].id == s.items[j].id;
      }
    }
    FindByIdUnique(items1, k);
  }

  /** A successful call keeps the optimistic status and frees the id. */
  lemma SuccessKeepsNewStatus(s: BoardState, ev: DragEnd)
    requires BeginDrag(s, ev).call.Some?
    ensures var r := BeginDrag(s, ev);
      var f := FinishDrag(r.board, r.call.value, Succeeded(()));
      && f.board.items == SetStatus(s.items, ev.active, r.call.value.target)
      && f.board.inFlight == s.inFlight
      && !f.alerted
  {
  }

  /** Drops never break the rule that Complete items carry a valid link,
      and neither does settling the call. */
  lemma DragKeepsCompleteRule(s: BoardState, ev: DragEnd, outcome: Outcome<()>)
    requires UniqueIds(s.items)
    requires CompleteHasValidLink(s.items)
    ensures CompleteHasValidLink(BeginDrag(s, ev).board.items)
    ensures var r := BeginDrag(s, ev);
      r.call.Some? ==> CompleteHasValidLink(FinishDrag(r.board, r.call.value, outcome).board.items)
  {
    var r := BeginDrag(s, ev);
    if r.call.Some? {
      var id, target := r.call.value.id, r.call.value.target;
      var item := FindById(s.items, id).value;
      forall k | 0 <= k < |s.items| && r.board.items[k].status == Complete
        ensures IsValidDriveFileLink(LinkOf(r.board.items[k]))
      {
        if s.items[k].id == id {
          FindByIdUnique(s.items, k);
          assert LinkOf(r.board.items[k]) == LinkOf(item);
        }
      }
    }
  }

  // ----- Columns (`byStatus`) -------------------------------------------------

  /** The items of one status, in collection order. */
  function Column(items: seq<ContentItem>, st: Status): (c: seq<ContentItem>)
    ensures |c| <= |items|
    ensures forall k :: 0 <= k < |c| ==> c[k].status == st
  {
    if |items| == 0 then []
    else
      var last := items[|items| - 1];
      var init := items[..|items| - 1];
      assert items == init + [last];
      Column(init, st) + (if last.status == st then [last] else [])
  }

  /** An item is in a column exactly when it is in the collection with that status. */
  lemma {:induction false} ColumnMembers(items: seq<ContentItem>, st: Status, x: ContentItem)
    ensures x in Column(items, st) <==> x in items && x.status == st
  {
    if |items| > 0 {
      var init, last := items[..|items| - 1], items[|items| - 1];
      assert items == init + [last];
      ColumnMembers(init, st, x);
    }
  }

  /** The three columns the board renders. */
  datatype Columns = Columns(notStarted: seq<ContentItem>, inProgress: seq<ContentItem>, complete: seq<ContentItem>) {
    function Get(st: Status): seq<ContentItem> {
      match st
      case NotStarted => notStarted
      case InProgress => inProgress
      case Complete => complete
    }
  }

  /** `byStatus`: one pass over the items, pushing each onto its status's column. */
  method ByStatus(items: seq<ContentItem>) returns (cols: Columns)
    ensures forall st :: cols.Get(st) == Column(items, st)
  {
    cols := Columns([], [], []);
    var i := 0;
    while i < |items|
      invariant 0 <= i <= |items|
      invariant forall st :: cols.Get(st) == Column(items[..i], st)
    {
      var it := items[i];
      assert items[..i + 1][..i] == items[..i];
      match it.status {
        case NotStarted => cols := cols.(notStarted := cols.notStarted + [it]);
        case InProgress => cols := cols.(inProgress := cols.inProgress + [it]);
        case Complete => cols := cols.(complete := cols.complete + [it]);
      }
      i := i + 1;
    }
    assert items[..i] == items;
  }

  /** Columns keep collection order: the column of a concatenation is the
      concatenation of the columns. */
  lemma {:induction false} ColumnOfConcat(a: seq<ContentItem>, b: seq<ContentItem>, st: Status)
    ensures Column(a + b, st) == Column(a, st) + Column(b, st)
    decreases |b|
  {
    if |b| == 0 {
      assert a + b == a;
    } else {
      var init := b[..|b| - 1];
      assert (a + b)[..|a + b| - 1] == a + init;
      ColumnOfConcat(a, init, st);
    }
  }

  /** The columns partition the items: every item is in exactly its own
      status's column, as often as it occurs. */
  lemma {:induction false} ColumnsPartition(items: seq<ContentItem>)
    ensures multiset(Column(items, NotStarted)) + multiset(Column(items, InProgress))
      + multiset(Column(items, Complete)) == multiset(items)
  {
    if |items| > 0 {
      var init, last := items[..|items| - 1], items[|items| - 1];
      assert items == init + [last];
      ColumnsPartition(init);
      ColumnSnocCount(init, last, NotStarted);
      ColumnSnocCount(init, last, InProgress);
      ColumnSnocCount(init, last, Complete);
      PartitionStep(multiset(Column(init, NotStarted)), multiset(Column(init, InProgress)),
                    multiset(Column(init, Complete)), multiset(Column(items, NotStarted)),
                    multiset(Column(items, InProgress)), multiset(Column(items, Complete)),
                    multiset(init), last);
    }
  }

  /** Appending an item adds it, as a multiset element, to its own column only. */
  lemma ColumnSnocCount(init: seq<ContentItem>, x: ContentItem, st: Status)
    ensures multiset(Column(init + [x], st))
      == multiset(Column(init, st)) + (if x.status == st then multiset{x} else multiset{})
  {
    ColumnSnoc(init, x, st);
  }

  /** The counting step of the partition: three buckets covering a multiset,
      one of which receives a new element, cover the multiset with it. */
  lemma PartitionStep(a: multiset<ContentItem>, b: multiset<ContentItem>, c: multiset<ContentItem>,
                      a2: multiset<ContentItem>, b2: multiset<ContentItem>, c2: multiset<ContentItem>,
                      whole: multiset<ContentItem>, x: ContentItem)
    requires a + b + c == whole
    requires a2 == a + (if x.status == NotStarted then multiset{x} else multiset{})
    requires b2 == b + (if x.status == InProgress then multiset{x} else multiset{})
    requires c2 == c + (if x.status == Complete then multiset{x} else multiset{})
    ensures a2 + b2 + c2 == whole + multiset{x}
  {
  }

  /** The column sizes add up to the number of items. */
  lemma ColumnSizes(items: seq<ContentItem>)
    ensures |Column(items, NotStarted)| + |Column(items, InProgress)| + |Column(items, Complete)| == |items|
  {
    ColumnsPartition(items);
    assert |multiset(items)| == |items|;
  }

  /** Adding one item at the end adds it to its own column only. */
  lemma ColumnSnoc(init: seq<ContentItem>, x: ContentItem, st: Status)
    ensures Column(init + [x], st) == Column(init, st) + (if x.status == st then [x] else [])
  {
    assert (init + [x])[..|init|] == init;
  }

  // ----- Drawer save hand-back (`onSaved`) ---------------------------------------

  /** Replaces every entry whose id matches the saved row by that row. */
  function ReplaceById(items: seq<ContentItem>, saved: ContentItem): (r: seq<ContentItem>)
    ensures |r| == |items|
    ensures forall k :: 0 <= k < |items| ==> r[k] == (if items[k].id == saved.id then saved else items[k])
  {
    seq(|items|, k requires 0 <= k < |items| => if items[k].id == saved.id then saved else items[k])
  }

  /** With unique ids, saving one row is a single-position update that keeps
      ids unique and makes the row findable by its id; a row whose id is not
      loaded changes nothing. */
  lemma ReplaceByIdIsPointUpdate(items: seq<ContentItem>, saved: ContentItem)
    requires UniqueIds(items)
    ensures UniqueIds(ReplaceById(items, saved))
    ensures forall k :: 0 <= k < |items| && items[k].id == saved.id ==>
      ReplaceById(items, saved) == items[k := saved]
    ensures FindById(items, saved.id).None? ==> ReplaceById(items, saved) == items
    ensures FindById(items, saved.id).Some? ==> FindById(ReplaceById(items, saved), saved.id) == Some(saved)
  {
    var r := ReplaceById(items, saved);
    if FindById(items, saved.id).Some? {
      var k :| 0 <= k < |items| && items[k].id == saved.id;
      assert r == items[k := saved];
      FindByIdUnique(r, k);
    }
  }
}

=== FILE: calendar.dfy ===
/** The calendar (src/components/CalendarView.tsx): items grouped by deadline
    day, the list for the selected day, the selected item, the two-title
    preview in a day cell, and the save hand-back that does not reload.
    Day keys are the opaque `yyyy-MM-dd` strings the items carry. */
module Calendar {
  import opened Types
  import Board

  /** The items due on `day`, in input order: the reference for each group. */
  function OnDay(items: seq<ContentItem>, day: string): (r: seq<ContentItem>)
    ensures |r| <= |items|
    ensures forall x :: x in r <==> x in items && x.deadline == day
  {
    if |items| == 0 then []
    else
      var last := items[|items| - 1];
      var init := items[..|items| - 1];
      assert items == init + [last];
      OnDay(init, day) + (if last.deadline == day then [last] else [])
  }

  /** The deadlines present among the items. */
  function Deadlines(items: seq<ContentItem>): set<string> {
    set i | 0 <= i < |items| :: items[i].deadline
  }

  /** `m` is the grouping of `items` by deadline: one key per deadline
      present, holding that day's items in input order. */
  predicate IsGrouping(items: seq<ContentItem>, m: map<string, seq<ContentItem>>) {
    && m.Keys == Deadlines(items)
    && forall day :: day in m ==> m[day] == OnDay(items, day)
  }

  lemma OnDaySnoc(init: seq<ContentItem>, x: ContentItem, day: string)
    ensures OnDay(init + [x], day) == OnDay(init, day) + (if x.deadline == day then [x] else [])
  {
    assert (init + [x])[..|init|] == init;
  }

  /** A day no item is due on has an empty group. */
  lemma {:induction false} OnDayAbsent(items: seq<ContentItem>, day: string)
    requires day !in Deadlines(items)
    ensures OnDay(items, day) == []
  {
    if |items| > 0 {
      var init, last := items[..|items| - 1], items[|items| - 1];
      assert last.deadline in Deadlines(items);
      assert Deadlines(init) <= Deadlines(items) by {
        forall j | 0 <= j < |init| ensures init[j].deadline in Deadlines(items) {
          assert init[j] == items[j];
        }
      }
      OnDayAbsent(init, day);
    }
  }

  /** Appending an item to the list under its deadline keeps the map a
      grouping of the longer sequence. */
  lemma GroupingSnoc(init: seq<ContentItem>, x: ContentItem, m: map<string, seq<ContentItem>>)
    requires IsGrouping(init, m)
    ensures IsGrouping(init + [x], m[x.deadline := (if x.deadline in m then m[x.deadline] else []) + [x]])
  {
    var key := x.deadline;
    var m' := m[key := (if key in m then m[key] else []) + [x]];
    forall day | day in m' ensures m'[day] == OnDay(init + [x], day) {
      OnDaySnoc(init, x, day);
      if day == key && key !in m {
        OnDayAbsent(init, day);
      }
    }
    DeadlinesSnoc(init, x);
  }

  /** Appending an item adds its deadline to the set of deadlines. */
  lemma DeadlinesSnoc(init: seq<ContentItem>, x: ContentItem)
    ensures Deadlines(init + [x]) == Deadlines(init) + {x.deadline}
  {
    var all := init + [x];
    assert all[|init|] == x;
    forall j | 0 <= j < |init| ensures all[j] == init[j] { }
    forall d | d in Deadlines(all) ensures d in Deadlines(init) + {x.deadline} {
      var j :| 0 <= j < |all| && all[j].deadline == d;
      if j < |init| { assert init[j].deadline == d; }
    }
  }

  /** `itemsByDay`: one pass, appending each item to the list under its deadline. */
  method ItemsByDay(items: seq<ContentItem>) returns (m: map<string, seq<ContentItem>>)
    ensures m.Keys == Deadlines(items)
    ensures forall day :: day in m ==> m[day] == OnDay(items, day)
  {
    m := map[];
    var i := 0;
    while i < |items|
      invariant 0 <= i <= |items|
      invariant IsGrouping(items[..i], m)
    {
      var it := items[i];
      var list := if it.deadline in m then m[it.deadline] else [];
      GroupingSnoc(items[..i], it, m);
      assert items[..i + 1] == items[..i] + [it];
      m := m[it.deadline := list + [it]];
      i := i + 1;
    }
    assert items[..i] == items;
  }

  /** Every item sits in the group of its own deadline. */
  lemma EveryItemGrouped(items: seq<ContentItem>, m: map<string, seq<ContentItem>>, k: nat)
    requires IsGrouping(items, m)
    requires k < |items|
    ensures items[k].deadline in m && items[k] in m[items[k].deadline]
  {
  }

  // ----- Group sizes ----------------------------------------------------------

  /** No key is listed twice. */
  predicate NoDuplicates(keys: seq<string>) {
    forall i, j :: 0 <= i < j < |keys| ==> keys[i] != keys[j]
  }

  /** Total size of the day groups for the listed keys. */
  function GroupSizes(items: seq<ContentItem>, keys: seq<string>): nat {
    if |keys| == 0 then 0 else |OnDay(items, keys[0])| + GroupSizes(items, keys[1..])
  }

  /** How many listed keys equal `day`. */
  function Occurrences(keys: seq<string>, day: string): nat {
    if |keys| == 0 then 0 else (if keys[0] == day then 1 else 0) + Occurrences(keys[1..], day)
  }

  lemma {:induction false} OccursOnce(keys: seq<string>, day: string)
    requires NoDuplicates(keys) && day in keys
    ensures Occurrences(keys, day) == 1
  {
    if keys[0] == day {
      OccursNever(keys[1..], day);
    } else {
      OccursOnce(keys[1..], day);
    }
  }

  lemma {:induction false} OccursNever(keys: seq<string>, day: string)
    requires day !in keys
    ensures Occurrences(keys, day) == 0
  {
    if |keys| > 0 {
      OccursNever(keys[1..], day);
    }
  }

  lemma {:induction false} GroupSizesSnoc(init: seq<ContentItem>, x: ContentItem, keys: seq<string>)
    ensures GroupSizes(init + [x], keys) == GroupSizes(init, keys) + Occurrences(keys, x.deadline)
  {
    if |keys| > 0 {
      OnDaySnoc(init, x, keys[0]);
      GroupSizesSnoc(init, x, keys[1..]);
    }
  }

  /** Listing each deadline once, the group sizes add up to the number of
      items: no item is lost or counted twice. */
  lemma {:induction false} GroupSizesSum(items: seq<ContentItem>, keys: seq<string>)
    requires NoDuplicates(keys)
    requires forall k :: 0 <= k < |items| ==> items[k].deadline in keys
    ensures GroupSizes(items, keys) == |items|
  {
    if |items| == 0 {
      GroupSizesEmpty(keys);
    } else {
      var init, x := items[..|items| - 1], items[|items| - 1];
      assert items == init + [x];
      GroupSizesSum(init, keys);
      GroupSizesSnoc(init, x, keys);
      OccursOnce(keys, x.deadline);
    }
  }

  /** Total size of the groups a map holds under the listed keys. */
  function MapSizes(m: map<string, seq<ContentItem>>, keys: seq<string>): nat
    requires forall i :: 0 <= i < |keys| ==> keys[i] in m
  {
    if |keys| == 0 then 0 else |m[keys[0]]| + MapSizes(m, keys[1..])
  }

  /** Over the grouping that `itemsByDay` builds, walking its keys once each,
      the group sizes add up to the number of items. */
  lemma {:induction false} GroupingSizesSum(items: seq<ContentItem>, m: map<string, seq<ContentItem>>, keys: seq<string>)
    requires IsGrouping(items, m)
    requires NoDuplicates(keys)
    requires forall d :: d in m <==> d in keys
    ensures MapSizes(m, keys) == |items|
  {
    MapSizesAreGroupSizes(items, m, keys);
    assert forall k :: 0 <= k < |items| ==> items[k].deadline in Deadlines(items);
    GroupSizesSum(items, keys);
  }

  lemma {:induction false} MapSizesAreGroupSizes(items: seq<ContentItem>, m: map<string, seq<ContentItem>>, keys: seq<string>)
    requires IsGrouping(items, m)
    requires forall i :: 0 <= i < |keys| ==> keys[i] in m
    ensures MapSizes(m, keys) == GroupSizes(items, keys)
  {
    if |keys| > 0 {
      MapSizesAreGroupSizes(items, m, keys[1..]);
    }
  }

  lemma {:induction false} GroupSizesEmpty(keys: seq<string>)
    ensures GroupSizes([], keys) == 0
  {
    if |keys| > 0 {
      GroupSizesEmpty(keys[1..]);
    }
  }

  // ----- Selection and cells ---------------------------------------------------

  /** `selectedItems`: nothing without a selected day; otherwise that day's
      group, or nothing when no item is due then. */
  function SelectedItems(m: map<string, seq<ContentItem>>, selectedDay: Option<string>): (r: seq<ContentItem>)
    ensures selectedDay.None? ==> r == []
    ensures selectedDay.Some? && selectedDay.value !in m ==> r == []
  {
    if selectedDay.None? then []
    else if selectedDay.value in m then m[selectedDay.value]
    else []
  }

  /** Over the real grouping, the selected list is exactly the items due on
      the selected day. */
  lemma SelectedItemsAreDue(items: seq<ContentItem>, m: map<string, seq<ContentItem>>, day: string)
    requires IsGrouping(items, m)
    ensures SelectedItems(m, Some(day)) == OnDay(items, day)
  {
    if day !in m {
      OnDayAbsent(items, day);
    }
  }

  /** What a day cell shows under its number: at most two titles, and an
      ellipsis when more items are due. */
  datatype CellPreview = CellPreview(titles: seq<string>, ellipsis: bool)

  /** The preview of a day's group; an empty day shows none. */
  function Preview(group: seq<ContentItem>): (p: Option<CellPreview>)
    ensures p.None? <==> |group| == 0
    ensures p.Some? ==> |p.value.titles| == (if |group| < 2 then |group| else 2)
    ensures p.Some? ==> forall i :: 0 <= i < |p.value.titles| ==> p.value.titles[i] == group[i].title
    ensures p.Some? ==> (p.value.ellipsis <==> |group| > 2)
  {
    if |group| == 0 then None
    else
      var shown := if |group| < 2 then group else group[..2];
      Some(CellPreview(seq(|shown|, i requires 0 <= i < |shown| => shown[i].title), |group| > 2))
  }

  /** The cell for `day` in the month grid: its item count and preview. */
  function DayCell(m: map<string, seq<ContentItem>>, day: string): (r: (nat, Option<CellPreview>))
    ensures r.1.None? <==> r.0 == 0
    ensures day in m ==> r.0 == |m[day]| && r.1 == Preview(m[day])
    ensures day !in m ==> r == (0, None)
  {
    var group := if day in m then m[day] else [];
    (|group|, Preview(group))
  }

  /** `onSaved` in the calendar does nothing: the list keeps the stale row
      until the user reloads. */
  function CalendarAfterSave(items: seq<ContentItem>, saved: ContentItem): seq<ContentItem> {
    items
  }

  /** Over the real grouping, a day cell counts exactly the items due that
      day and previews their first titles. */
  lemma DayCellCountsDue(items: seq<ContentItem>, m: map<string, seq<ContentItem>>, day: string)
    requires IsGrouping(items, m)
    ensures DayCell(m, day).0 == |OnDay(items, day)|
    ensures DayCell(m, day).1 == Preview(OnDay(items, day))
  {
    if day !in m {
      OnDayAbsent(items, day);
    }
  }

  /** The board and the calendar differ after the same save: the board
      shows the saved row at once, the calendar keeps the old one. */
  lemma SaveAsymmetry(items: seq<ContentItem>, saved: ContentItem, k: nat)
    requires k < |items| && items[k].id == saved.id && items[k] != saved
    ensures CalendarAfterSave(items, saved) == items
    ensures Board.ReplaceById(items, saved) != items
    ensures Board.ReplaceById(items, saved)[k] == saved
  {
  }
}

=== FILE: drawer.dfy ===
/** The item drawer (src/components/ContentDrawer.tsx): who may edit, the
    form edits the inputs allow, the save that merges, validates, normalises
    and sends the nine editable fields, and the audit-list fallback. */
module Drawer {
  import opened Types
  import opened Validate
  import opened Gateway

  /** `isEditable`: an open item, and the user is an admin or the item's PIC. */
  function IsEditable(item: Option<ContentItem>, userEmail: string, canCreateAny: bool): (ok: bool)
    ensures item.None? ==> !ok
    ensures item.Some? && canCreateAny ==> ok
    ensures item.Some? && !canCreateAny ==> (ok <==> item.value.picEmail == userEmail)
  {
    item.Some? && (canCreateAny || item.value.picEmail == userEmail)
  }

  /** The Save button is enabled only for an editable item and not while a
      save is running. */
  function SaveEnabled(item: Option<ContentItem>, userEmail: string, canCreateAny: bool, saving: bool): (ok: bool)
    ensures ok <==> item.Some? && !saving && (canCreateAny || item.value.picEmail == userEmail)
  {
    IsEditable(item, userEmail, canCreateAny) && !saving
  }

  // ----- Form ---------------------------------------------------------------

  /** One change typed into an input of the drawer form. */
  datatype Edit =
    | EditTitle(title: string)
    | EditPlatform(platform: Platform)
    | EditStatus(status: Status)
    | EditDeadline(deadline: string)
    | EditPic(pic: string)
    | EditBrief(brief: string)
    | EditLinkAsset(linkAsset: string)
    | EditLinkDraft(linkDraft: string)
    | EditFinalLink(finalLink: string)

  /** The form after one edit. An input that is disabled or not shown takes
      no edit: the PIC input is enabled for admins only, the others for
      editable items; the asset and draft links are shown for In Progress and
      Complete, the final link for Complete only. */
  function ApplyEdit(form: ContentItem, e: Edit, editable: bool, canCreateAny: bool): (r: ContentItem)
    ensures !canCreateAny ==> r.picEmail == form.picEmail
    ensures !editable ==> r.(picEmail := form.picEmail) == form
    ensures !editable && !e.EditPic? ==> r == form
    ensures r.id == form.id && r.createdAt == form.createdAt && r.updatedAt == form.updatedAt
    ensures canCreateAny && e.EditPic? ==> r == form.(picEmail := e.pic)
    ensures !canCreateAny && e.EditPic? ==> r == form
    ensures editable && e.EditTitle? ==> r == form.(title := e.title)
    ensures editable && e.EditPlatform? ==> r == form.(platform := e.platform)
    ensures editable && e.EditStatus? ==> r == form.(status := e.status)
    ensures editable && e.EditDeadline? ==> r == form.(deadline := e.deadline)
    ensures editable && e.EditBrief? ==> r == form.(brief := Some(e.brief))
    ensures e.EditLinkAsset? ==>
      r == if editable && (form.status == InProgress || form.status == Complete) then form.(linkAsset := Some(e.linkAsset)) else form
    ensures e.EditLinkDraft? ==>
      r == if editable && (form.status == InProgress || form.status == Complete) then form.(linkDraft := Some(e.linkDraft)) else form
    ensures e.EditFinalLink? ==>
      r == if editable && form.status == Complete then form.(finalLink := Some(e.finalLink)) else form
  {
    match e
    case EditPic(v) => if canCreateAny then form.(picEmail := v) else form
    case EditTitle(v) => if editable then form.(title := v) else form
    case EditPlatform(v) => if editable then form.(platform := v) else form
    case EditStatus(v) => if editable then form.(status := v) else form
    case EditDeadline(v) => if editable then form.(deadline := v) else form
    case EditBrief(v) => if editable then form.(brief := Some(v)) else form
    case EditLinkAsset(v) =>
      if editable && (form.status == InProgress || form.status == Complete) then form.(linkAsset := Some(v)) else form
    case EditLinkDraft(v) =>
      if editable && (form.status == InProgress || form.status == Complete) then form.(linkDraft := Some(v)) else form
    case EditFinalLink(v) =>
      if editable && form.status == Complete then form.(finalLink := Some(v)) else form
  }

  /** The form after a run of edits, oldest first. */
  function ApplyEdits(form: ContentItem, edits: seq<Edit>, editable: bool, canCreateAny: bool): ContentItem
    decreases |edits|
  {
    if |edits| == 0 then form
    else ApplyEdits(ApplyEdit(form, edits[0], editable, canCreateAny), edits[1..], editable, canCreateAny)
  }

  /** Whatever a non-admin types, the form keeps the PIC it started with. */
  lemma {:induction false} NonAdminEditsKeepPic(form: ContentItem, edits: seq<Edit>, editable: bool)
    ensures ApplyEdits(form, edits, editable, false).picEmail == form.picEmail
    decreases |edits|
  {
    if |edits| > 0 {
      NonAdminEditsKeepPic(ApplyEdit(form, edits[0], editable, false), edits[1..], editable);
    }
  }

  // ----- Save ---------------------------------------------------------------

  /** A partial record of the nine editable fields (`Partial<ContentItem>`):
      None leaves the form's value. */
  datatype Patch = Patch(
    title: Option<string>,
    platform: Option<Platform>,
    status: Option<Status>,
    picEmail: Option<string>,
    deadline: Option<string>,
    brief: Option<Option<string>>,
    linkAsset: Option<Option<string>>,
    linkDraft: Option<Option<string>>,
    finalLink: Option<Option<string>>)

  /** `save()` without an argument. */
  const NoPatch := Patch(None, None, None, None, None, None, None, None, None)

  /** `{ ...form, ...patch }`: a field the patch sets wins, every other field
      comes from the form. */
  function Merge(form: ContentItem, p: Patch): (next: ContentItem)
    ensures next.id == form.id && next.createdAt == form.createdAt && next.updatedAt == form.updatedAt
    ensures next.title == p.title.GetOr(form.title)
    ensures next.platform == p.platform.GetOr(form.platform)
    ensures next.status == p.status.GetOr(form.status)
    ensures next.picEmail == p.picEmail.GetOr(form.picEmail)
    ensures next.deadline == p.deadline.GetOr(form.deadline)
    ensures next.brief == p.brief.GetOr(form.brief)
    ensures next.linkAsset == p.linkAsset.GetOr(form.linkAsset)
    ensures next.linkDraft == p.linkDraft.GetOr(form.linkDraft)
    ensures next.finalLink == p.finalLink.GetOr(form.finalLink)
  {
    ContentItem(
      form.id,
      p.title.GetOr(form.title),
      p.platform.GetOr(form.platform),
      p.status.GetOr(form.status),
      p.picEmail.GetOr(form.picEmail),
      p.deadline.GetOr(form.deadline),
      p.brief.GetOr(form.brief),
      p.linkAsset.GetOr(form.linkAsset),
      p.linkDraft.GetOr(form.linkDraft),
      p.finalLink.GetOr(form.finalLink),
      form.createdAt,
      form.updatedAt)
  }

  /** Merging no patch leaves the form; merging a patch twice is merging it once. */
  lemma MergeLaws(form: ContentItem, p: Patch)
    ensures Merge(form, NoPatch) == form
    ensures Merge(Merge(form, p), p) == Merge(form, p)
  {
  }

  /** The update sent to the store: exactly the nine editable fields, never
      the id or the timestamps. */
  datatype UpdatePayload = UpdatePayload(
    title: string,
    platform: Platform,
    status: Status,
    picEmail: string,
    deadline: string,
    brief: Option<string>,
    linkAsset: Option<string>,
    linkDraft: Option<string>,
    finalLink: Option<string>)

  function PayloadOf(next: ContentItem): UpdatePayload {
    UpdatePayload(next.title, next.platform, next.status, next.picEmail, next.deadline,
                  next.brief, next.linkAsset, next.linkDraft, next.finalLink)
  }

  /** A row as the store updates it with a payload: the nine fields are
      overwritten, the id and creation time are kept (the store recomputes
      the update time, so the model keeps the old one). */
  function ApplyPayload(row: ContentItem, p: UpdatePayload): (r: ContentItem)
    ensures r.id == row.id && r.createdAt == row.createdAt
    ensures PayloadOf(r) == p
  {
    ContentItem(row.id, p.title, p.platform, p.status, p.picEmail, p.deadline,
                p.brief, p.linkAsset, p.linkDraft, p.finalLink, row.createdAt, row.updatedAt)
  }

  /** What `save` decides before it awaits. */
  datatype SavePlan =
    | NoItem                                   // no item open: nothing happens
    | LinkRejected                             // message shown, no update
    | Send(id: string, payload: UpdatePayload) // one update of this row

  /** The final link as save reads it: `String(next.final_drive_link ?? '')`, trimmed. */
  function TrimmedFinalLink(next: ContentItem): string {
    NormalizeUrl(next.finalLink.GetOr(""))
  }

  /** `save(patch)` up to the store call. For Complete the trimmed final link
      must be valid and is what gets stored; for any other status the link is
      replaced by its trimmed form only when that is non-empty, so a
      whitespace-only link is sent as it was. */
  function PlanSave(item: Option<ContentItem>, form: ContentItem, p: Patch): (r: SavePlan)
    ensures item.None? <==> r.NoItem?
    ensures r.Send? ==> r.id == item.value.id
    ensures item.Some? ==> (r.LinkRejected? <==>
      Merge(form, p).status == Complete && !IsValidDriveFileLink(TrimmedFinalLink(Merge(form, p))))
    ensures r.Send? ==> r.payload.(finalLink := Merge(form, p).finalLink) == PayloadOf(Merge(form, p))
    ensures r.Send? && r.payload.status == Complete ==>
      r.payload.finalLink == Some(TrimmedFinalLink(Merge(form, p)))
    ensures r.Send? && r.payload.status != Complete ==>
      r.payload.finalLink == (if |TrimmedFinalLink(Merge(form, p))| > 0
                              then Some(TrimmedFinalLink(Merge(form, p)))
                              else Merge(form, p).finalLink)
  {
    if item.None? then NoItem
    else
      var next := Merge(form, p);
      var link := TrimmedFinalLink(next);
      if next.status == Complete then
        if !IsValidDriveFileLink(link) then LinkRejected
        else Send(item.value.id, PayloadOf(next.(finalLink := Some(link))))
      else if |link| > 0 then Send(item.value.id, PayloadOf(next.(finalLink := Some(link))))
      else Send(item.value.id, PayloadOf(next))
  }

  /** A Complete save always sends a valid, already-normalised final link. */
  lemma CompleteSaveSendsValidLink(item: Option<ContentItem>, form: ContentItem, p: Patch)
    requires PlanSave(item, form, p).Send?
    requires PlanSave(item, form, p).payload.status == Complete
    ensures PlanSave(item, form, p).payload.finalLink.Some?
    ensures IsValidDriveFileLink(PlanSave(item, form, p).payload.finalLink.value)
    ensures NormalizeUrl(PlanSave(item, form, p).payload.finalLink.value)
      == PlanSave(item, form, p).payload.finalLink.value
  {
    NormalizeIdempotent(Merge(form, p).finalLink.GetOr(""));
  }

  /** A whitespace-only final link on a save that is not Complete is sent
      exactly as typed, not as "". */
  lemma BlankLinkKeptWhenNotComplete(item: ContentItem, form: ContentItem, p: Patch)
    requires Merge(form, p).status != Complete
    requires Merge(form, p).finalLink.Some? && AllSpace(Merge(form, p).finalLink.value)
    ensures PlanSave(Some(item), form, p).Send?
    ensures PlanSave(Some(item), form, p).payload.finalLink == Merge(form, p).finalLink
  {
    var link := Merge(form, p).finalLink.value;
    assert |NormalizeUrl(link)| == 0;
  }

  /** A non-admin's save never changes the PIC: the form starts as the item,
      the PIC input ignores them, and the Save button passes no patch. */
  lemma NonAdminSaveKeepsPic(item: ContentItem, userEmail: string, edits: seq<Edit>)
    ensures var plan := PlanSave(Some(item), ApplyEdits(item, edits, IsEditable(Some(item), userEmail, false), false), NoPatch);
      plan.Send? ==> plan.payload.picEmail == item.picEmail
  {
    NonAdminEditsKeepPic(item, edits, IsEditable(Some(item), userEmail, false));
  }

  /** Storing a Complete payload yields a row that satisfies the Complete
      rule and keeps its identity. */
  lemma SavedRowKeepsCompleteRule(row: ContentItem, item: Option<ContentItem>, form: ContentItem, p: Patch)
    requires PlanSave(item, form, p).Send?
    ensures var r := ApplyPayload(row, PlanSave(item, form, p).payload);
      && r.id == row.id
      && (r.status == Complete ==> r.finalLink.Some? && IsValidDriveFileLink(r.finalLink.value))
  {
    var pl := PlanSave(item, form, p).payload;
    if pl.status == Complete {
      CompleteSaveSendsValidLink(item, form, p);
    }
  }

  /** What the drawer ends with after the store answers a sent update: the
      returned row is handed to `onSaved`; either way a message is shown. */
  datatype SaveEnd = SavedRow(row: ContentItem) | SaveFailed

  function FinishSave(reply: Outcome<ContentItem>): (r: SaveEnd)
    ensures r.SavedRow? <==> reply.Succeeded?
    ensures r.SavedRow? ==> r.row == reply.value
  {
    match reply
    case Succeeded(row) => SavedRow(row)
    case Failed => SaveFailed
  }

  // ----- Audit trail --------------------------------------------------------

  /** The reply to the audit query: rows (possibly null), a query error, or a
      thrown exception. */
  datatype AuditReply = AuditRows(rows: Option<seq<AuditLog>>) | AuditError | AuditThrew

  /** The audit list and its loading flag. */
  datatype AuditView = AuditView(rows: seq<AuditLog>, loading: bool)

  /** `loadAudit` after the query settles. A load whose effect was cleaned
      up (`alive` false) changes nothing; an error or exception empties the
      list; otherwise the rows are shown, a null reply as no rows. */
  function FinishAuditLoad(v: AuditView, alive: bool, reply: AuditReply): (r: AuditView)
    ensures !alive ==> r == v
    ensures alive ==> !r.loading
    ensures alive && !reply.AuditRows? ==> r.rows == []
    ensures alive && reply.AuditRows? && reply.rows.Some? ==> r.rows == reply.rows.value
    ensures alive && reply.AuditRows? && reply.rows.None? ==> r.rows == []
  {
    if !alive then v
    else
      match reply
      case AuditRows(rows) => AuditView(rows.GetOr([]), false)
      case AuditError => AuditView([], false)
      case AuditThrew => AuditView([], false)
  }
}

=== FILE: gateway.dfy ===
/** The hosted row store, seen only through the outcome of each call.
    Transport, authentication and query syntax belong to the store; the
    model receives every reply as a parameter, so any outcome may occur. */
module Gateway {

  /** What one remote call came back with: a value, or an error (a failed
      reply or a thrown exception; only the fact that it failed is kept). */
  datatype Outcome<+T> = Succeeded(value: T) | Failed
}

=== FILE: new_content.dfy ===
/** The new-item dialog (src/components/NewContentModal.tsx): when Create is
    enabled, the row it inserts, and how the form is reset. */
module NewContent {
  import opened Types
  import opened Gateway
  import Board

  /** The dialog's fields and flags; `failed` stands for the error message. */
  datatype NewForm = NewForm(
    title: string,
    platform: Platform,
    deadline: string,
    pic: string,
    brief: string,
    busy: bool,
    failed: bool)

  /** The dialog as first rendered for a user. */
  function FreshForm(userEmail: string): NewForm {
    NewForm("", Reels, "", userEmail, "", false, false)
  }

  /** The row `create` inserts; the store assigns the id and timestamps. */
  datatype InsertRecord = InsertRecord(
    title: string,
    platform: Platform,
    status: Status,
    picEmail: string,
    deadline: string,
    brief: Option<string>)

  /** The Create button: not busy, and title and deadline both non-empty
      (a whitespace-only title counts as filled in). */
  function CreateEnabled(f: NewForm): (ok: bool)
    ensures ok <==> !f.busy && |f.title| > 0 && |f.deadline| > 0
  {
    !f.busy && f.title != "" && f.deadline != ""
  }

  /** The PIC the input shows: the typed one for admins, the user's own otherwise. */
  function PicShown(f: NewForm, userEmail: string, canCreateAny: bool): (pic: string)
    ensures !canCreateAny ==> pic == userEmail
    ensures canCreateAny ==> pic == f.pic
  {
    if canCreateAny then f.pic else userEmail
  }

  /** The inserted row: always Not Started; the PIC is the typed one only for
      admins; an empty brief becomes null and any other is kept verbatim. */
  function InsertRecordOf(f: NewForm, userEmail: string, canCreateAny: bool): (r: InsertRecord)
    ensures r.status == NotStarted
    ensures r.title == f.title && r.platform == f.platform && r.deadline == f.deadline
    ensures r.picEmail == PicShown(f, userEmail, canCreateAny)
    ensures r.brief.None? <==> f.brief == ""
    ensures r.brief.Some? ==> r.brief.value == f.brief
  {
    InsertRecord(f.title, f.platform, NotStarted, if canCreateAny then f.pic else userEmail,
                 f.deadline, if f.brief == "" then None else Some(f.brief))
  }

  /** The form after the insert settles. On success title, deadline and brief
      are cleared and the PIC goes back to the user, the platform is kept; on
      failure every field stays and the message is set. */
  function FinishCreate(f: NewForm, userEmail: string, outcome: Outcome<()>): (r: NewForm)
    ensures !r.busy
    ensures outcome.Failed? ==> r == f.(busy := false, failed := true)
    ensures outcome.Succeeded? ==> r == FreshForm(userEmail).(platform := f.platform)
  {
    match outcome
    case Succeeded(_) =>
      f.(title := "", deadline := "", brief := "", pic := userEmail, busy := false, failed := false)
    case Failed =>
      f.(busy := false, failed := true)
  }

  /** After a successful create the dialog cannot be submitted again until a
      title and a deadline are typed. */
  lemma CreateThenDisabled(f: NewForm, userEmail: string)
    ensures !CreateEnabled(FinishCreate(f, userEmail, Succeeded(())))
  {
  }

  /** A row the store builds from an insert record satisfies the Complete
      rule: a new item is never Complete. */
  lemma NewItemKeepsCompleteRule(f: NewForm, userEmail: string, canCreateAny: bool,
                                 id: string, createdAt: string)
    ensures var rec := InsertRecordOf(f, userEmail, canCreateAny);
      Board.CompleteHasValidLink([ContentItem(id, rec.title, rec.platform, rec.status, rec.picEmail,
        rec.deadline, rec.brief, None, None, None, createdAt, createdAt)])
  {
  }
}

=== FILE: types.dfy ===
/** Entities shared by every component: the content item, its status and
    platform, audit rows, and look-up by identifier. */
module Types {

  /** A nullable value (`T | null` in the application). */
  datatype Option<+T> = None | Some(value: T) {
    function GetOr(default: T): T {
      match this
      case Some(v) => v
      case None => default
    }
  }

  /** The three workflow columns, in board order. */
  datatype Status = NotStarted | InProgress | Complete

  datatype Platform = Reels | TikTok | YTShorts

  /** One content item (a social media post in production). Deadlines and
      timestamps are kept as the opaque strings the store returns. */
  datatype ContentItem = ContentItem(
    id: string,
    title: string,
    platform: Platform,
    status: Status,
    picEmail: string,
    deadline: string,
    brief: Option<string>,
    linkAsset: Option<string>,
    linkDraft: Option<string>,
    finalLink: Option<string>,
    createdAt: string,
    updatedAt: string)

  /** One recorded field change, as read from the audit table. */
  datatype AuditLog = AuditLog(
    id: int,
    contentId: string,
    changedAt: string,
    changedBy: Option<string>,
    field: string,
    oldValue: Option<string>,
    newValue: Option<string>)

  /** The wire spelling of each status. */
  function StatusName(s: Status): string {
    match s
    case NotStarted => "Not Started"
    case InProgress => "In Progress"
    case Complete => "Complete"
  }

  /** Reads a status from its wire spelling; anything else is not a status. */
  function ParseStatus(name: string): (r: Option<Status>)
    ensures r.Some? ==> StatusName(r.value) == name
    ensures (exists s: Status :: StatusName(s) == name) ==> r.Some?
  {
    if name == "Not Started" then Some(NotStarted)
    else if name == "In Progress" then Some(InProgress)
    else if name == "Complete" then Some(Complete)
    else None
  }

  lemma ParseStatusRoundTrip(s: Status)
    ensures ParseStatus(StatusName(s)) == Some(s)
  {
  }

  /** No two items share an identifier. */
  predicate UniqueIds(items: seq<ContentItem>) {
    forall i, j :: 0 <= i < |items| && 0 <= j < |items| && items[i].id == items[j].id ==> i == j
  }

  /** Position of the first item with the given identifier, or |items|. */
  function FirstIndexOf(items: seq<ContentItem>, id: string): (k: nat)
    ensures k <= |items|
    ensures k < |items| ==> items[k].id == id
    ensures forall j :: 0 <= j < k ==> items[j].id != id
  {
    if |items| == 0 then 0
    else if items[0].id == id then 0
    else 1 + FirstIndexOf(items[1..], id)
  }

  /** The first item whose identifier matches, like `items.find(i => i.id === id)`. */
  function FindById(items: seq<ContentItem>, id: string): (r: Option<ContentItem>)
    ensures r.None? <==> forall j :: 0 <= j < |items| ==> items[j].id != id
    ensures r.Some? ==> r.value.id == id
    ensures r.Some? ==> exists k :: (0 <= k < |items| && items[k] == r.value
                                     && forall j :: 0 <= j < k ==> items[j].id != id)
  {
    var k := FirstIndexOf(items, id);
    if k < |items| then Some(items[k]) else None
  }

  /** With unique identifiers, the item found is the one at any position holding that id. */
  lemma FindByIdUnique(items: seq<ContentItem>, k: nat)
    requires UniqueIds(items)
    requires k < |items|
    ensures FindById(items, items[k].id) == Some(items[k])
  {
  }

  /** The item a view has selected: `items.find(i => i.id === selectedId) ?? null`. */
  function FindSelected(items: seq<ContentItem>, selectedId: Option<string>): (r: Option<ContentItem>)
    ensures selectedId.None? ==> r.None?
    ensures selectedId.Some? ==> r == FindById(items, selectedId.value)
    ensures r.Some? ==> r.value in items && r.value.id == selectedId.value
  {
    if selectedId.None? then None else FindById(items, selectedId.value)
  }
}

=== FILE: validate.dfy ===
/** Deliverable-link checks: trimming, the link-shape predicate and
    normalisation (src/lib/validate.ts). */
module Validate {

  /** The characters `String.prototype.trim` strips: ECMAScript WhiteSpace
      and LineTerminator code points. */
  predicate IsSpace(c: char) {
    || c == ' ' || c == '\t' || c == '\n' || c == '\r'
    || c == '\U{000B}' || c == '\U{000C}' || c == '\U{00A0}' || c == '\U{1680}'
    || ('\U{2000}' <= c <= '\U{200A}')
    || c == '\U{2028}' || c == '\U{2029}' || c == '\U{202F}' || c == '\U{205F}'
    || c == '\U{3000}' || c == '\U{FEFF}'
  }

  /** Every character of `s` is whitespace (vacuously true of ""). */
  predicate AllSpace(s: string) {
    forall i :: 0 <= i < |s| ==> IsSpace(s[i])
  }

  /** Neither end of `s` is whitespace. */
  predicate Trimmed(s: string) {
    |s| == 0 || (!IsSpace(s[0]) && !IsSpace(s[|s| - 1]))
  }

  /** `sub` starts at position `i` of `s`. */
  predicate OccursAt(s: string, sub: string, i: int) {
    0 <= i && i + |sub| <= |s| && s[i..i + |sub|] == sub
  }

  /** `sub` occurs somewhere in `s`, like JavaScript's `s.includes(sub)`. */
  predicate Contains(s: string, sub: string) {
    exists i | 0 <= i <= |s| :: OccursAt(s, sub, i)
  }

  /** Length of the whitespace run at the start of `s`. */
  function LeadingSpace(s: string): (n: nat)
    ensures n <= |s|
    ensures forall i :: 0 <= i < n ==> IsSpace(s[i])
    ensures n < |s| ==> !IsSpace(s[n])
  {
    if |s| > 0 && IsSpace(s[0]) then 1 + LeadingSpace(s[1..]) else 0
  }

  /** Length of the whitespace run at the end of `s`. */
  function TrailingSpace(s: string): (n: nat)
    ensures n <= |s|
    ensures forall i :: |s| - n <= i < |s| ==> IsSpace(s[i])
    ensures n < |s| ==> !IsSpace(s[|s| - n - 1])
  {
    if |s| > 0 && IsSpace(s[|s| - 1]) then 1 + TrailingSpace(s[..|s| - 1]) else 0
  }

  /** `url.trim()`: the contiguous middle of `s` left when the whitespace
      runs at both ends are cut away. */
  function Trim(s: string): (r: string)
    ensures Trimmed(r)
    ensures LeadingSpace(s) + |r| <= |s|
    ensures r == s[LeadingSpace(s)..LeadingSpace(s) + |r|]
    ensures forall i :: LeadingSpace(s) + |r| <= i < |s| ==> IsSpace(s[i])
  {
    var a := LeadingSpace(s);
    var t := TrailingSpace(s);
    if a == |s| then ""
    else
      assert a < |s| - t;
      s[a..|s| - t]
  }

  /** Trimming has exactly one answer: a middle that neither starts nor ends
      with whitespace, padded by whitespace on both sides, is what trim returns. */
  lemma TrimUnique(s: string, pre: string, mid: string, post: string)
    requires s == pre + mid + post
    requires AllSpace(pre) && AllSpace(post) && Trimmed(mid)
    ensures Trim(s) == mid
  {
    var a := LeadingSpace(s);
    var t := TrailingSpace(s);
    assert forall i :: 0 <= i < |pre| ==> s[i] == pre[i];
    assert forall i :: 0 <= i < |post| ==> s[|pre| + |mid| + i] == post[i];
    if |mid| > 0 {
      assert s[|pre|] == mid[0];
      assert s[|pre| + |mid| - 1] == mid[|mid| - 1];
      assert a == |pre|;
      assert t == |post|;
      assert s[a..|s| - t] == mid;
    }
  }

  /** `normalizeUrl`: trimming and nothing else. */
  function NormalizeUrl(url: string): (r: string)
    ensures Trimmed(r)
    ensures |r| <= |url|
  {
    Trim(url)
  }

  lemma NormalizeIdempotent(s: string)
    ensures NormalizeUrl(NormalizeUrl(s)) == NormalizeUrl(s)
  {
    var r := NormalizeUrl(s);
    assert r == [] + r + [];
    TrimUnique(r, [], r, []);
  }

  /** The normalised link is a contiguous piece of the input with only
      whitespace cut from each end. */
  lemma NormalizeIsTrimmedSlice(s: string)
    ensures exists pre, post :: s == pre + NormalizeUrl(s) + post && AllSpace(pre) && AllSpace(post)
  {
    var r := NormalizeUrl(s);
    var a := LeadingSpace(s);
    var pre, post := s[..a], s[a + |r|..];
    assert AllSpace(pre) by {
      forall i | 0 <= i < |pre| ensures IsSpace(pre[i]) {
        assert pre[i] == s[i];
      }
    }
    assert AllSpace(post) by {
      forall i | 0 <= i < |post| ensures IsSpace(post[i]) {
        assert post[i] == s[a + |r| + i];
      }
    }
    assert s == pre + s[a..a + |r|] + post;
  }

  /** Path fragment of a single-file Drive link. */
  const DriveFileMarker: string := "drive.google.com/file/d/"
  /** Host fragment of a Docs link. */
  const DocsMarker: string := "docs.google.com/"

  /** `isValidDriveFileLink`: non-empty after trimming and naming a Drive
      file or a Docs document. */
  function IsValidDriveFileLink(url: string): (ok: bool)
    ensures ok ==> !AllSpace(url)
    ensures ok ==> Contains(url, DriveFileMarker) || Contains(url, DocsMarker)
  {
    var u := Trim(url);
    if |u| == 0 then false
    else
      assert !IsSpace(url[LeadingSpace(url)]);
      ContainsInSlice(url, LeadingSpace(url), |u|, DriveFileMarker);
      ContainsInSlice(url, LeadingSpace(url), |u|, DocsMarker);
      Contains(u, DriveFileMarker) || Contains(u, DocsMarker)
  }

  /** An occurrence in a slice is an occurrence in the whole. */
  lemma ContainsInSlice(s: string, k: nat, n: nat, sub: string)
    requires k + n <= |s|
    ensures Contains(s[k..k + n], sub) ==> Contains(s, sub)
  {
    if Contains(s[k..k + n], sub) {
      var i :| OccursAt(s[k..k + n], sub, i);
      assert OccursAt(s[k..k + n], sub, i);
      var t := s[k..k + n];
      forall j | 0 <= j < |sub| ensures s[k + i + j] == sub[j] {
        assert t[i..i + |sub|][j] == t[i + j] == s[k + i + j];
      }
      assert s[k + i..k + i + |sub|] == sub;
      assert OccursAt(s, sub, k + i);
    }
  }

  /** An empty or whitespace-only string is never a deliverable link. */
  lemma BlankIsInvalid(s: string)
    requires AllSpace(s)
    ensures !IsValidDriveFileLink(s)
  {
  }

  /** An occurrence of a string that starts and ends with non-whitespace
      survives trimming. */
  lemma ContainsSurvivesTrim(s: string, sub: string)
    requires Trimmed(sub) && |sub| > 0
    ensures Contains(s, sub) ==> Contains(Trim(s), sub)
  {
    if Contains(s, sub) {
      var i :| OccursAt(s, sub, i);
      assert OccursAt(s, sub, i);
      var r := Trim(s);
      var a := LeadingSpace(s);
      assert s[i] == sub[0];
      assert s[i + |sub| - 1] == sub[|sub| - 1];
      assert a <= i;
      assert i + |sub| <= a + |r|;
      assert r[i - a..i - a + |sub|] == s[i..i + |sub|];
      assert OccursAt(r, sub, i - a);
    }
  }

  /** Validity is exactly "names a Drive file or a Docs document somewhere":
      surrounding whitespace never changes the verdict. */
  lemma ValidIffContainsMarker(s: string)
    ensures IsValidDriveFileLink(s) <==> Contains(s, DriveFileMarker) || Contains(s, DocsMarker)
  {
    assert Trimmed(DriveFileMarker) && Trimmed(DocsMarker);
    ContainsSurvivesTrim(s, DriveFileMarker);
    ContainsSurvivesTrim(s, DocsMarker);
    if Contains(s, DriveFileMarker) {
      var i :| OccursAt(Trim(s), DriveFileMarker, i);
    } else if Contains(s, DocsMarker) {
      var i :| OccursAt(Trim(s), DocsMarker, i);
    }
  }

  /** A link naming neither a Drive file nor a Docs document — a Drive
      folder link, say — is rejected. */
  lemma NoMarkerIsInvalid(s: string)
    requires !Contains(s, DriveFileMarker) && !Contains(s, DocsMarker)
    ensures !IsValidDriveFileLink(s)
  {
  }

  /** Checking validity after normalising gives the same verdict. */
  lemma ValidityIgnoresNormalize(s: string)
    ensures IsValidDriveFileLink(NormalizeUrl(s)) == IsValidDriveFileLink(s)
  {
    NormalizeIdempotent(s);
  }

  /** A single-file Drive link typed with surrounding spaces is accepted. */
  lemma DriveFileLinkIsValid()
    ensures IsValidDriveFileLink("  https://drive.google.com/file/d/XYZ/view ")
  {
    var s := "  https://drive.google.com/file/d/XYZ/view ";
    assert s == "  https://" + DriveFileMarker + "XYZ/view ";
    assert s[10..10 + |DriveFileMarker|] == DriveFileMarker;
    assert OccursAt(s, DriveFileMarker, 10);
    ValidIffContainsMarker(s);
  }
}
